=== FILE: README.md ===
# dcd-processor: aggregation engine and outbound chunker, in Dafny

This project models the core of the dcd-processor service. The service
consumes the `things`, `properties` and `values` topics of a Kafka bus. For
every tracked thing it keeps a record. Once per period it publishes, for each thing, at most one update of
the derived property "Data Count" (how many values arrived) and at most one
of "Data Activity" (Quiet = 0 or Busy = 1). A Quiet thing with nothing
counted publishes nothing, and a Busy thing with arrivals publishes only its
count.

- `ProcessorState` (state.dfy): `thingMap` and `propertyMap` as two Dafny
  maps inside one immutable `State`. It also holds the effects the handlers
  produce: registry calls (`Read`, `Create`) and property updates.
- `Registrar` (registrar.dfy): `createThingProperties`, `processThing` and
  `processProperty`. Each registry call completes at once. Its answer
  (`Outcomes`) is an input, and each handler returns the new state together
  with the calls it issued.
- `Aggregation` (aggregation.dfy): `processValue`, which charges a batch of
  values to the thing that owns the property.
- `ActivityEvaluator` (activity.dfy): `checkActivityAndCount`. It is a
  per-record `Step` lifted over the map by map comprehensions, and `now`
  stands for `Date.now()`. The counter is deliberately left negative after a
  tick. The processor's own updates come back on `values` as one-value
  batches, and this counter compensates for them in advance:
  `EchoCompensation` proves that once those echoes are counted, the counter
  is back at zero.
- `EventRouter` (router.dfy): `onMessage`. `JSON.parse` is an abstract
  partial function, passed in as a parameter.
- `KafkaPublisher` (kafka.dfy): `pushData` and `sendToKafka`. `PushData` is a
  loop that mirrors the source. `Chunks` is an independent reference
  partition, and `PartitionIsUnique` proves that the two agree. The
  producer's answer to the i-th send is the parameter `callback(i)`.
  `JSON.stringify` is the parameter `stringify`.

Three lines of index.js contradict the comments next to them, and one call
(index.js:69) contradicts the signature of the function it calls
(index.js:107). The model follows the comments and the signature. Each deviation is marked with a comment in the Dafny
source, and the literal behaviour is kept in `StepAsWritten` and
`OnValuesAsWritten` (see Findings):

- index.js:122-126 publishes the reset counter instead of the count.
- index.js:137 sends the activity update to the count property.
- index.js:146 sets the activity to 1 where it should become 0.
- index.js:69 passes the whole message to `processValue`.

In two more places the model departs from the literal code:

- index.js:110 would throw when a property is indexed but its thing is not
  yet tracked. The model treats this as a dropped batch.
- index.js:170 and index.js:181 assign implicit globals. The model uses
  locals, because each registry call completes atomically.

Four behaviours of the code that a reader might not expect, all of which
the model keeps:

- A registry read can succeed and still lack "Data Count" or "Data
  Activity". `findPropertyByName(...).id` then throws inside the promise
  chain, so the catch branch provisions the thing
  (`ReadFailureProvisions`).
- `processThing` has no guard against a thing that is already tracked
  (index.js:77-80). A repeated `things` event creates both properties again
  and resets the record (`ProcessThingReprovisions`), so provisioning is
  not idempotent.
- After a period with arrivals the counter is set to -1 or -2, not 0
  (index.js:122,134), as the comment at index.js:121 explains. It reaches 0
  only once the echoes of the tick's own updates have been counted
  (`EchoCompensation`).
- `pushData` neither waits for the chunks it sends inside the loop nor
  stops at a failed one (kafka.js:75-80). `PushData` models that.
  `PublishBatch` is a stricter publisher of the model's own: it awaits each
  chunk in turn and stops at the first failure (see Findings).

## Model

| member | source | states |
|---|---|---|
| Registrar.FindByName | index.js:94-95 | finds the id of a property with the given name exactly when the thing owns one; nothing when none has that name (where the source throws) |
| Registrar.Recover | index.js:88-96 | a thing read back from the registry yields a record exactly when it owns both "Data Count" and "Data Activity"; the record has the read id, count 0, activity Quiet and those two property ids |
| Registrar.Provision | index.js:158-192 | the COUNT create is always issued first; the CLASS create with labels Quiet/Busy is issued exactly when the first succeeded; a fully initialised record (count 0, Quiet, both new ids) is stored exactly when both succeed, otherwise the things map is unchanged; the index is never touched and every stored record is kept or fresh |
| Registrar.ProcessThing | index.js:77-80 | a payload with a string id provisions exactly that thing, as `Provision` states; only create calls for that thing; the index is unchanged; no thing is lost; a payload without a string id changes nothing |
| Registrar.ProcessProperty | index.js:82-105 | insert-once: with no owner or an already indexed id nothing changes and nothing is called; otherwise exactly `id -> owner` is added and no entry changes; a read is issued exactly when the owner is untracked, and it is the first call; no other record is touched and only the owner can be added |
| Registrar.ReadRecoversRecord | index.js:86-97 | untracked owner, read succeeds with both named properties: one read and no create, and the owner's record is rebuilt from the read ids with count 0 and Quiet |
| Registrar.ReadFailureProvisions | index.js:98-101 | untracked owner, read fails or lacks a named property: the calls are exactly the read, the COUNT create, and the CLASS create (labels Quiet/Busy) exactly when the COUNT create succeeded; the owner becomes tracked (with the created ids) exactly when both creates succeed |
| Registrar.ProcessThingReprovisions | index.js:77-80 | a `things` event for a tracked thing creates both properties again and resets its record to count 0, Quiet |
| Aggregation.ProcessValue | index.js:107-112 | a batch of n values for a property whose owner is tracked raises exactly that owner's counter by n and changes nothing else; an unindexed id (or untracked owner) changes nothing |
| Aggregation.ArrivalsAreCounted | index.js:107-112 | across any sequence of value batches, each tracked thing's counter grows by exactly the number of values charged to it, and the index, the tracked set and all other fields stay the same |
| ActivityEvaluator.Step | index.js:116-155 | ids unchanged; Busy exactly when values arrived; the observed count is published to dataCountId when positive, and the new classification to dataActivityId exactly when it changes; the counter is left at minus the number of updates published after a busy period, one lower after a busy-to-quiet step |
| ActivityEvaluator.Tick | index.js:114-156 | same keys, index unchanged; per record: ids never modified; at most one count update then at most one activity update, all stamped now and addressed to its own properties; a Quiet record with counter <= 0 is unchanged and silent; counter > 0 ends Busy with counter = -(updates emitted) and first publishes the count, followed by the activity update (dataActivityId, now, 1) exactly when the record was Quiet; Busy with counter <= 0 ends Quiet with one activity update of 0 and the counter down by exactly 1 |
| ActivityEvaluator.TickIsPerRecord | index.js:116-118 | records evolve independently: replacing one record before a tick changes only that record's result and emissions |
| ActivityEvaluator.EchoCompensation | index.js:120-148 | when both derived properties are indexed under their thing, a tick followed by the echoes of its own updates leaves the counter at 0 after a busy period, and where it was otherwise |
| ActivityEvaluator.IdlePeriodEndsQuiet | index.js:142-153 | after any tick, a period without arrivals ends Quiet |
| ActivityEvaluator.StepKeepsFloor | index.js:120-153 | a tick keeps the counter at or above -2 when Busy and -3 when Quiet |
| ActivityEvaluator.StepAsWritten | index.js:120-154 | the literal tick: ids unchanged; the counter becomes -2 when a Quiet record turns Busy, -1 after other arrivals, one lower after an idle Busy period and stays as it is when Quiet and idle; a positive count is published as -1; any record with arrivals becomes Busy; the Quiet-to-Busy activity update goes to dataCountId; a Busy record with arrivals publishes only that count; an idle Busy record publishes 1 to dataActivityId and stays Busy; an idle Quiet record publishes nothing; counter plus updates equals `Baseline` |
| ActivityEvaluator.AsWrittenBusyIsAbsorbing | index.js:143-146 | under the literal tick, a Busy record stays Busy whatever arrives in later periods |
| ActivityEvaluator.AsWrittenDiffersOnFirstBusyPeriod | index.js:122-139 | for a Quiet record that counted 5, the literal tick publishes -1 and 1 both to the count property, while the corrected tick publishes 5 to the count property and 1 to the activity property |
| EventRouter.ProcessValues | index.js:68-69 | the values handler as intended: a parsed array of n values is charged to the property named by the message key; a payload that is not an array changes nothing |
| EventRouter.OnMessage | index.js:50-75 | a parsed payload on `things` is exactly `ProcessThing`, on `properties` exactly `ProcessProperty`, and on `values` raises the counter of the message key's owner by the array's length and touches no other record (a non-array or an unresolved key changes nothing); an unparsable payload or an unknown topic changes nothing and calls nothing; `things` only creates and leaves the index alone; `values` calls nothing and only raises counters; `properties` adds at most one index entry and changes none; no thing or index entry is ever removed; every record is kept or fresh except under `values` |
| EventRouter.OnValuesAsWritten | index.js:68-69 | the literal `processValue(message)` never changes the state |
| EventRouter.AsWrittenValuesAreNeverCounted | index.js:69 | a two-value batch for an indexed property of a tracked thing counts 2 under the intended handler and 0 as written |
| EventRouter.EmptyKeepsInvariant | index.js:14-15 | the counter floor holds of the initial state, where both maps are empty |
| EventRouter.OnMessageKeepsInvariant | index.js:50-112 | handling any message keeps every counter at or above its floor |
| EventRouter.TickKeepsInvariant | index.js:114-156 | a tick keeps every counter at or above its floor |
| KafkaPublisher.SendToKafka | kafka.js:100-113 | one payload `{topic, messages}`; rejects exactly when the producer callback reports an error, with that error |
| KafkaPublisher.WrappedKeyedExactlyWithKey | kafka.js:69-73 | each message is a keyed message with the given key exactly when a key is defined, and a plain serialised message otherwise |
| KafkaPublisher.SendFullChunks | kafka.js:68-81 | the loop: the sends issued and the remainder concatenate to the wrapped body in order; every send is a full chunk of 1000 on the topic; the remainder is shorter than 1000; n = 1000 x sends + remainder |
| KafkaPublisher.PushData | kafka.js:62-93 | not enabled: rejects 500 "Kafka not enabled." and sends nothing; not ready: rejects 500 "Kafka producer not ready." and sends nothing; otherwise the sent chunks concatenate to the wrapped body in order, all on the topic, all full but the last (1 to 1000), ceil(n/1000) sends, equal to the reference chunking; the outcome is the last send's when n is not a multiple of 1000, and the not-ready rejection otherwise |
| KafkaPublisher.ChunksPartition | kafka.js:68-85 | the reference chunking concatenates back to its input, with full chunks and a last chunk of 1 to 1000 |
| KafkaPublisher.ChunksCount | kafka.js:75-84 | the reference chunking has ceil(n/size) chunks |
| KafkaPublisher.PartitionIsUnique | kafka.js:68-85 | any order-preserving cut into full chunks and a non-empty remainder is the reference chunking |
| KafkaPublisher.AsWrittenRejectsFullChunk | kafka.js:82-90 | 1000 messages: one full chunk is sent and then the call rejects as "producer not ready" |
| KafkaPublisher.AsWrittenIgnoresEarlierFailure | kafka.js:75-85 | 1001 messages whose first send fails: both chunks are sent and the call resolves |
| KafkaPublisher.SendInTurn | kafka.js:75-85 | the sending of the model's own `PublishBatch`, the corrected form of this loop, which sends without waiting: chunks are sent in order, each after the previous succeeded; it stops at the first failure and reports it; resolves exactly when all were sent and accepted |
| KafkaPublisher.PublishBatch | kafka.js:62-93 | a stricter publisher of the model's own: the same two rejections; otherwise the reference chunks are sent in order up to the first failure, the call resolves exactly when the whole body was sent and every send accepted, a rejection is the failing send's error, and an empty body resolves with no send |

## Left out

- kafka.js `connect` (kafka.js:20-58) is left out: client construction, consumer wiring and offset recovery are network I/O.
- Consumer setup, `DCDModel` initialisation, dotenv and log4js (index.js:1-44) are left out. Logging has no effect on the state.
- The `setInterval` scheduling (index.js:194) is left out. The tick is one atomic step, and nothing interleaves it with the handlers.
- Promise scheduling is left out. Each registry call completes at once with the outcome given as input, so overlapping provisioning attempts are not modelled.
- The outcome of `model.properties.updateValues` is not modelled. The tick is fire-and-forget and ignores it.
- `JSON.parse` and `JSON.stringify` are function parameters (`parse`, `stringify`). JSON numbers are integers, because no handler reads one.
- `findPropertyByName` belongs to the dcd-model library, which is not part of this model. It is assumed to return the first property with that name.
- Ids are strings. Here an event whose id or owner is not a string is dropped. The source does otherwise. JavaScript coerces any object key to a string, so a number id becomes its decimal form. A missing id is `undefined`: for a `things` payload that is a number, a string, an array or an object without `id`, `createThingProperties(undefined)` issues both creates and stores the record under "undefined". A `null` payload on `things` or `properties` makes the source throw a TypeError.
- Here a `values` payload that is not an array is dropped. The source adds `values.length` to the counter whatever it is: a string adds its length, and an object with a numeric `length` adds that number. Anything else without a numeric `length` turns the counter into NaN, and `null` throws a TypeError.
- Every update of one tick carries the same `now`. The source reads `Date.now()` separately for each update (index.js:126, 138, 152), so the timestamps of one tick may differ by a few milliseconds.
- A Kafka key may be a Buffer or null. Here it is an optional string, and a missing key resolves no property.
- KafkaPublisher.Wrap: a `null` key passed to `pushData` is not modelled. kafka.js:69 tests only `key !== undefined`, so a null key still yields `KeyedMessage(null, …)`, while `Option<string>` has no null, and `None` stands for `undefined` only.
- KafkaPublisher.SendToKafka: the error is `Option<string>`, and any `Some` rejects. kafka.js:107 tests `if (error)`, so a falsy error (`0`, `""`, `false`) resolves; such values are not modelled.
- Counters are unbounded integers. JavaScript numbers are exact only up to 2^53.
- The tick reports emitted updates per thing as a map. The source walks `thingMap` in insertion order, and the model gives no order across things.

## Findings

| source | as written | input that shows it | evidently intended | confidence | as-written member | corrected member |
|---|---|---|---|---|---|---|
| index.js:122-126 | the counter is set to -1 before it is published, so every count update carries -1 | a Quiet record with count 5 | publish 5, then reset the counter | high (comment at index.js:123); not executed | ActivityEvaluator.StepAsWritten, ActivityEvaluator.AsWrittenDiffersOnFirstBusyPeriod | ActivityEvaluator.Step |
| index.js:137 | the Quiet-to-Busy activity update is sent to `dataCountId` | a Quiet record with count 5 | send it to `dataActivityId` | high (comment at index.js:135); not executed | ActivityEvaluator.StepAsWritten, ActivityEvaluator.AsWrittenDiffersOnFirstBusyPeriod | ActivityEvaluator.Step |
| index.js:146 | the became-quiet branch sets the activity to 1, so a Busy thing never becomes Quiet | a Busy record, then any number of periods without arrivals | set the activity to 0 | high (comment at index.js:142-144); not executed | ActivityEvaluator.AsWrittenBusyIsAbsorbing | ActivityEvaluator.IdlePeriodEndsQuiet |
| index.js:69 | `processValue(message)` leaves `propertyId` undefined, so no value is ever counted | a `values` message keyed "p1" holding `[1, 2]`, where p1 is indexed under a tracked thing | `processValue(json, message.key)` | high (signature at index.js:107); not executed | EventRouter.OnValuesAsWritten, EventRouter.AsWrittenValuesAreNeverCounted | EventRouter.ProcessValues |
| kafka.js:82-90 | a body whose length is a multiple of 1000 falls through to the "producer not ready" rejection after all its chunks were sent | 1000 messages, every send accepted | resolve once the sends succeed | medium; not executed | KafkaPublisher.PushData, KafkaPublisher.AsWrittenRejectsFullChunk | KafkaPublisher.PublishBatch |
| kafka.js:77 | the sends of full chunks are not awaited: the returned promise ignores their outcome, and a failed one is a rejection with no handler, an `unhandledRejection` that ends the process by default from Node 15 on | 1001 messages, the first send fails and the second is accepted | report the first failure through the returned promise | low (no comment states the intent); not executed | KafkaPublisher.PushData, KafkaPublisher.AsWrittenIgnoresEarlierFailure | KafkaPublisher.PublishBatch |

=== FILE: activity.dfy ===
/** The periodic evaluation (`checkActivityAndCount`): for every tracked
    entity, report how many values arrived during the period and classify it
    as Quiet or Busy, publishing a property update on every change.

    The processor's own updates come back to it as value batches on the
    properties it created, so the counter is left negative after a tick by the
    number of updates just published: once those echoes are counted the next
    period starts from zero. */
module ActivityEvaluator {
  import opened Wrappers
  import opened ProcessorState
  import Aggregation

  /** One record after a tick, with the updates it published. */
  datatype Stepped = Stepped(rec: ThingRecord, updates: seq<Update>)

  /** The counter a record should hold once the echoes of its own updates
      have been counted: zero after a period with arrivals, unchanged
      otherwise. */
  function Baseline(rec: ThingRecord): int {
    if rec.count > 0 then 0 else rec.count
  }

  /** The evaluation of one record, following the comments of index.js:116-155.
      Three literal lines differ, each marked below; `StepAsWritten` keeps
      them. */
  function Step(rec: ThingRecord, now: int): (r: Stepped)
    ensures r.rec.id == rec.id && r.rec.dataCountId == rec.dataCountId && r.rec.dataActivityId == rec.dataActivityId
    // Busy exactly when values arrived during the period.
    ensures r.rec.activity == (if rec.count > 0 then Busy else Quiet)
    // The observed count is published when positive, and the new
    // classification whenever it changes, in that order.
    ensures r.updates ==
              (if rec.count > 0 then [Update(rec.dataCountId, now, rec.count)] else [])
              + (if r.rec.activity != rec.activity then [Update(rec.dataActivityId, now, Code(r.rec.activity))] else [])
    // Every published update is compensated in advance.
    ensures r.rec.count + |r.updates| == Baseline(rec)
  {
    if rec.count > 0 then
      // Deviation: index.js:122-126 assigns -1 before publishing and so
      // publishes -1; the observed count is published here, then reset.
      var countUpdate := Update(rec.dataCountId, now, rec.count);
      var reset := rec.(count := -1);
      match rec.activity
      case Quiet =>
        var busy := reset.(activity := Busy, count := reset.count - 1);
        // Deviation: index.js:137 sends this update to dataCountId.
        Stepped(busy, [countUpdate, Update(rec.dataActivityId, now, Code(Busy))])
      case Busy =>
        Stepped(reset, [countUpdate])
    else
      match rec.activity
      case Busy =>
        // Deviation: index.js:146 sets the activity to 1 (Busy) again.
        var quiet := rec.(activity := Quiet, count := rec.count - 1);
        Stepped(quiet, [Update(rec.dataActivityId, now, Code(quiet.activity))])
      case Quiet =>
        Stepped(rec, [])
  }

  /** The result of a tick: the new state and, per entity, what it published. */
  datatype TickResult = TickResult(state: State, emitted: map<Id, seq<Update>>)

  /** One tick over the whole state: every record is evaluated on its own. */
  function Tick(s: State, now: int): (r: TickResult)
    ensures r.state.props == s.props
    ensures r.state.things.Keys == s.things.Keys && r.emitted.Keys == s.things.Keys
    ensures forall k :: k in s.things ==>
              var before := s.things[k]; var after := r.state.things[k]; var ups := r.emitted[k];
              // ids are never modified
              && after.id == before.id
              && after.dataCountId == before.dataCountId
              && after.dataActivityId == before.dataActivityId
              // at most one count update, then at most one activity update
              && |ups| <= 2
              && (forall i :: 0 <= i < |ups| ==> ups[i].timestamp == now)
              && (forall i :: 0 <= i < |ups| ==> ups[i].propertyId in {before.dataCountId, before.dataActivityId})
              && (|ups| == 2 ==> ups[0].propertyId == before.dataCountId && ups[1].propertyId == before.dataActivityId)
              // a quiet record with nothing counted is left alone
              && (before.activity == Quiet && before.count <= 0 ==> after == before && ups == [])
              // values arrived: Busy, counter minus the number of updates published
              && (before.count > 0 ==>
                    after.activity == Busy && after.count == -|ups| && 1 <= |ups|
                    && ups[0] == Update(before.dataCountId, now, before.count))
              // ... and a Quiet one also announces that it became Busy
              && (before.count > 0 ==>
                    (|ups| == 2 <==> before.activity == Quiet)
                    && (|ups| == 2 ==> ups[1] == Update(before.dataActivityId, now, Code(Busy))))
              // Busy and nothing arrived: Quiet, one activity update, counter down by one
              && (before.activity == Busy && before.count <= 0 ==>
                    after.activity == Quiet && after.count == before.count - 1
                    && ups == [Update(before.dataActivityId, now, Code(Quiet))])
  {
    TickResult(State(Evolve(s.things, now), s.props), Emissions(s.things, now))
  }

  /** Every record after its own evaluation. */
  function Evolve(things: map<Id, ThingRecord>, now: int): map<Id, ThingRecord> {
    map k | k in things :: Step(things[k], now).rec
  }

  /** Every record's published updates. */
  function Emissions(things: map<Id, ThingRecord>, now: int): map<Id, seq<Update>> {
    map k | k in things :: Step(things[k], now).updates
  }

  /** Records evolve independently: replacing one record before the tick
      changes nothing the tick does to the others. */
  lemma TickIsPerRecord(s: State, k: Id, rec: ThingRecord, now: int)
    ensures var t := Tick(s, now);
            var t' := Tick(State(s.things[k := rec], s.props), now);
            && t'.state.things == t.state.things[k := Step(rec, now).rec]
            && t'.emitted == t.emitted[k := Step(rec, now).updates]
  {
    var m := s.things[k := rec];
    assert Evolve(m, now) == Evolve(s.things, now)[k := Step(rec, now).rec];
    assert Emissions(m, now) == Emissions(s.things, now)[k := Step(rec, now).updates];
  }

  /** The value batches by which the updates come back on the `values` topic:
      one value per update, keyed by the updated property. */
  function Echo(ups: seq<Update>): (r: seq<Aggregation.Batch>)
    ensures |r| == |ups|
    ensures forall i :: 0 <= i < |r| ==> r[i] == Aggregation.Batch(Some(ups[i].propertyId), 1)
  {
    seq(|ups|, i requires 0 <= i < |ups| => Aggregation.Batch(Some(ups[i].propertyId), 1))
  }

  /** Echoes of updates to properties that all resolve to `o` are all charged to `o`. */
  lemma {:induction false} EchoCharged(s: State, ups: seq<Update>, o: Id)
    requires forall i :: 0 <= i < |ups| ==> Aggregation.Owner(s, Some(ups[i].propertyId)) == Some(o)
    ensures Aggregation.ChargedTo(s, Echo(ups), o) == |ups|
    decreases |ups|
  {
    if |ups| > 0 {
      assert Echo(ups)[1..] == Echo(ups[1..]);
      EchoCharged(s, ups[1..], o);
    }
  }

  /** The purpose of the negative counter: when both derived properties of an
      entity are indexed under it, the tick followed by the echoes of its own
      updates leaves the counter at zero after a busy period, and where it was
      otherwise. */
  lemma EchoCompensation(s: State, k: Id, now: int)
    requires k in s.things
    requires s.things[k].dataCountId in s.props && s.props[s.things[k].dataCountId] == k
    requires s.things[k].dataActivityId in s.props && s.props[s.things[k].dataActivityId] == k
    ensures var t := Tick(s, now);
            var echoed := Aggregation.Arrive(t.state, Echo(t.emitted[k]));
            k in echoed.things && echoed.things[k].count == Baseline(s.things[k])
  {
    var t := Tick(s, now);
    var step := Step(s.things[k], now);
    assert t.state.things[k] == step.rec && t.emitted[k] == step.updates;
    var ups := step.updates;
    forall i | 0 <= i < |ups|
      ensures Aggregation.Owner(t.state, Some(ups[i].propertyId)) == Some(k)
    {
      assert ups[i].propertyId in {s.things[k].dataCountId, s.things[k].dataActivityId};
    }
    Aggregation.ArrivalsAreCounted(t.state, Echo(ups));
    EchoCharged(t.state, ups, k);
  }

  /** A period with no arrivals after any tick ends Quiet: a tick never
      leaves a positive counter behind. */
  lemma IdlePeriodEndsQuiet(rec: ThingRecord, now: int, later: int)
    ensures Step(Step(rec, now).rec, later).rec.activity == Quiet
  {
  }

  /** The lower bound that the compensation keeps on the counter. */
  predicate CounterFloor(rec: ThingRecord) {
    rec.count >= (if rec.activity == Busy then -2 else -3)
  }

  /** A tick keeps the counter within its floor. */
  lemma StepKeepsFloor(rec: ThingRecord, now: int)
    requires CounterFloor(rec)
    ensures CounterFloor(Step(rec, now).rec)
  {
  }

  // ---- The literal evaluation of index.js:116-155 ----

  /** `checkActivityAndCount` for one record exactly as written: the count is
      reset before it is published (index.js:122-126), the activity update of
      the Quiet-to-Busy branch goes to dataCountId (index.js:137), and the
      Busy-to-Quiet branch sets the activity to 1 (index.js:146). */
  function StepAsWritten(rec: ThingRecord, now: int): (r: Stepped)
    ensures r.rec.id == rec.id && r.rec.dataCountId == rec.dataCountId && r.rec.dataActivityId == rec.dataActivityId
    ensures rec.count > 0 ==> |r.updates| >= 1 && r.updates[0] == Update(rec.dataCountId, now, -1)
    ensures rec.count > 0 && rec.activity == Quiet ==>
              r.updates == [Update(rec.dataCountId, now, -1), Update(rec.dataCountId, now, Code(Busy))]
    ensures rec.activity == Busy ==> r.rec.activity == Busy
    // Arrivals make a record Busy, as index.js:132 does for a Quiet one.
    ensures rec.count > 0 ==> r.rec.activity.Busy?
    // What the literal lines keep: the counter is -1 after arrivals, -2 when
    // the record turns Busy, and one lower after an idle period.
    ensures r.rec.count == (if rec.count > 0 then (if rec.activity == Quiet then -2 else -1) else
                            if rec.activity == Busy then rec.count - 1 else rec.count)
    // A Busy record with arrivals publishes only the (wrong) count.
    ensures rec.count > 0 && rec.activity == Busy ==> r.updates == [Update(rec.dataCountId, now, -1)]
    // A Busy record after an idle period republishes Busy to the activity property.
    ensures rec.count <= 0 && rec.activity == Busy ==> r.updates == [Update(rec.dataActivityId, now, Code(Busy))]
    // A Quiet record with nothing counted stays as it is and publishes nothing.
    ensures rec.count <= 0 && rec.activity == Quiet ==> r.rec == rec && r.updates == []
    // The advance compensation holds as written too.
    ensures r.rec.count + |r.updates| == Baseline(rec)
  {
    if rec.count > 0 then
      var reset := rec.(count := -1);
      var countUpdate := Update(rec.dataCountId, now, reset.count);
      if rec.activity == Quiet then
        var busy := reset.(activity := Busy, count := reset.count - 1);
        Stepped(busy, [countUpdate, Update(rec.dataCountId, now, Code(busy.activity))])
      else
        Stepped(reset, [countUpdate])
    else if rec.activity == Busy then
      var still := rec.(activity := Busy, count := rec.count - 1);
      Stepped(still, [Update(rec.dataActivityId, now, Code(still.activity))])
    else
      Stepped(rec, [])
  }

  /** Periods of arrivals, each closed by a literal tick. */
  function RunAsWritten(rec: ThingRecord, arrivals: seq<nat>, now: int): ThingRecord
    decreases |arrivals|
  {
    if |arrivals| == 0 then rec
    else RunAsWritten(StepAsWritten(rec.(count := rec.count + arrivals[0]), now).rec, arrivals[1..], now)
  }

  /** As written, Busy is absorbing: whatever arrives afterwards, a record
      that has once become Busy is never classified Quiet again. */
  lemma {:induction false} AsWrittenBusyIsAbsorbing(rec: ThingRecord, arrivals: seq<nat>, now: int)
    requires rec.activity == Busy
    ensures RunAsWritten(rec, arrivals, now).activity == Busy
    decreases |arrivals|
  {
    if |arrivals| > 0 {
      AsWrittenBusyIsAbsorbing(StepAsWritten(rec.(count := rec.count + arrivals[0]), now).rec, arrivals[1..], now);
    }
  }

  /** The discrepancies on one input: a quiet record that counted 5 values. */
  lemma AsWrittenDiffersOnFirstBusyPeriod()
    ensures var rec := ThingRecord("t1", 5, Quiet, "c1", "a1");
            && StepAsWritten(rec, 0).updates == [Update("c1", 0, -1), Update("c1", 0, 1)]
            && Step(rec, 0).updates == [Update("c1", 0, 5), Update("a1", 0, 1)]
  {
  }
}

=== FILE: aggregation.dfy ===
/** The `values` handler (`processValue`): a batch of values received by a
    property raises the period counter of the entity owning it. */
module Aggregation {
  import opened Wrappers
  import opened ProcessorState

  /** The entity a value batch for `propertyId` is charged to, if any. */
  function Owner(s: State, propertyId: Option<Id>): (r: Option<Id>)
    ensures r.Some? <==> propertyId.Some? && propertyId.value in s.props && s.props[propertyId.value] in s.things
    ensures r.Some? ==> r.value == s.props[propertyId.value] && r.value in s.things
  {
    if propertyId.Some? && propertyId.value in s.props && s.props[propertyId.value] in s.things
    then Some(s.props[propertyId.value])
    else None
  }

  /** `processValue(values, propertyId)` with `n` values. An unindexed
      property id changes nothing. An indexed property whose owner is not yet
      tracked makes the source throw (index.js:110); it is a drop here. */
  function ProcessValue(s: State, propertyId: Option<Id>, n: nat): (r: State)
    ensures r.props == s.props
    ensures r.things.Keys == s.things.Keys
    ensures Owner(s, propertyId).None? ==> r == s
    ensures Owner(s, propertyId).Some? ==>
              var o := Owner(s, propertyId).value;
              && r.things[o] == s.things[o].(count := s.things[o].count + n)
              && forall k :: k in s.things && k != o ==> r.things[k] == s.things[k]
  {
    match Owner(s, propertyId)
    case None => s
    case Some(o) =>
      var rec := s.things[o];
      State(s.things[o := rec.(count := rec.count + n)], s.props)
  }

  /** A value batch: the message key naming the property, and how many values. */
  datatype Batch = Batch(propertyId: Option<Id>, size: nat)

  /** Several value batches handled one after another. */
  function Arrive(s: State, batches: seq<Batch>): State
    decreases |batches|
  {
    if |batches| == 0 then s
    else Arrive(ProcessValue(s, batches[0].propertyId, batches[0].size), batches[1..])
  }

  /** The number of values in `batches` charged to entity `o`. */
  function ChargedTo(s: State, batches: seq<Batch>, o: Id): nat
    decreases |batches|
  {
    if |batches| == 0 then 0
    else (if Owner(s, batches[0].propertyId) == Some(o) then batches[0].size else 0)
         + ChargedTo(s, batches[1..], o)
  }

  /** Resolution only depends on the index and on which entities are tracked,
      and value batches change neither. */
  lemma {:induction false} ChargedToStable(s: State, s': State, batches: seq<Batch>, o: Id)
    requires s'.props == s.props && s'.things.Keys == s.things.Keys
    ensures ChargedTo(s', batches, o) == ChargedTo(s, batches, o)
    decreases |batches|
  {
    if |batches| > 0 {
      ChargedToStable(s, s', batches[1..], o);
    }
  }

  /** Between two ticks, each tracked entity's counter grows by exactly the
      number of values in the batches that resolve to it; the index, the set
      of tracked entities and everything but the counters stay as they were. */
  lemma {:induction false} ArrivalsAreCounted(s: State, batches: seq<Batch>)
    ensures var r := Arrive(s, batches);
            && r.props == s.props
            && r.things.Keys == s.things.Keys
            && forall o :: o in s.things ==>
                 r.things[o] == s.things[o].(count := s.things[o].count + ChargedTo(s, batches, o))
    decreases |batches|
  {
    if |batches| > 0 {
      var s1 := ProcessValue(s, batches[0].propertyId, batches[0].size);
      ArrivalsAreCounted(s1, batches[1..]);
      forall o | o in s.things
        ensures ChargedTo(s1, batches[1..], o) == ChargedTo(s, batches[1..], o)
      {
        ChargedToStable(s, s1, batches[1..], o);
      }
    }
  }
}

=== FILE: json.dfy ===
/** The parsed form of a message payload. Parsing itself (`JSON.parse`) is an
    abstract partial function supplied by the caller; only the shape of its
    result matters to the processor. */
module Json {
  import opened Wrappers

  /** A JSON document. Numbers are integers: the processor never reads one. */
  datatype Value =
    | JNull
    | JBool(b: bool)
    | JNum(n: int)
    | JStr(s: string)
    | JArr(items: seq<Value>)
    | JObj(fields: map<string, Value>)

  /** `doc.name` in JavaScript: the member of an object, `undefined` otherwise. */
  function Field(doc: Value, name: string): (r: Option<Value>)
    ensures r.Some? <==> doc.JObj? && name in doc.fields
    ensures r.Some? ==> r.value == doc.fields[name]
  {
    if doc.JObj? && name in doc.fields then Some(doc.fields[name]) else None
  }

  /** The identifier carried by a member, when it is a string. */
  function AsKey(v: Option<Value>): (r: Option<string>)
    ensures r.Some? <==> v.Some? && v.value.JStr?
    ensures r.Some? ==> v.value == JStr(r.value)
  {
    match v
    case Some(JStr(s)) => Some(s)
    case _ => None
  }
}

=== FILE: kafka.dfy ===
/** The outbound publisher of kafka.js: `pushData` wraps every message of a
    body and hands them to the producer in chunks of at most 1000, and
    `sendToKafka` maps the producer's callback to a resolved or rejected
    promise. The producer's answer to each send is a parameter. */
module KafkaPublisher {
  import opened Wrappers

  /** The largest number of messages handed to the producer in one send. */
  const MaxBatch: nat := 1000

  /** A `KeyedMessage(key, json)` or a plain serialised message. */
  datatype KafkaMessage = Keyed(key: string, value: string) | Plain(value: string)

  /** One `{topic, messages}` entry of the producer's payload list. */
  datatype Payload = Payload(topic: string, messages: seq<KafkaMessage>)

  /** Why a promise was rejected: an `{code, message}` object, or the error
      the producer reported. */
  datatype Reason = Status(code: int, message: string) | SendFailed(error: string)

  datatype Outcome = Resolved | Rejected(reason: Reason)

  /** The publisher's two flags, `enable` and `producerIsReady`. */
  datatype Producer = Producer(enabled: bool, ready: bool)

  const NotEnabled: Outcome := Rejected(Status(500, "Kafka not enabled."))
  const NotReady: Outcome := Rejected(Status(500, "Kafka producer not ready."))

  /** One `producer.send` and its callback. */
  datatype Sent = Sent(payloads: seq<Payload>, outcome: Outcome)

  /** `sendToKafka(topic, messages)`, where `error` is what the producer's
      callback reports. */
  function SendToKafka(topic: string, messages: seq<KafkaMessage>, error: Option<string>): (r: Sent)
    ensures r.payloads == [Payload(topic, messages)]
    ensures r.outcome.Rejected? <==> error.Some?
    ensures error.Some? ==> r.outcome.reason == SendFailed(error.value)
  {
    Sent([Payload(topic, messages)], if error.Some? then Rejected(SendFailed(error.value)) else Resolved)
  }

  /** The wrapping of one body element, `JSON.stringify` being `stringify`. */
  function Wrap<T>(msg: T, key: Option<string>, stringify: T -> string): KafkaMessage {
    if key.Some? then Keyed(key.value, stringify(msg)) else Plain(stringify(msg))
  }

  /** Every element of a body wrapped, in order. */
  function WrapAll<T>(body: seq<T>, key: Option<string>, stringify: T -> string): (r: seq<KafkaMessage>)
    ensures |r| == |body|
    ensures forall i :: 0 <= i < |body| ==> r[i] == Wrap(body[i], key, stringify)
  {
    seq(|body|, i requires 0 <= i < |body| => Wrap(body[i], key, stringify))
  }

  /** Each message is a `KeyedMessage` carrying the key exactly when a key is
      given, and a plain serialised message otherwise. */
  lemma WrappedKeyedExactlyWithKey<T>(body: seq<T>, key: Option<string>, stringify: T -> string)
    ensures forall i :: 0 <= i < |body| ==>
              var m := WrapAll(body, key, stringify)[i];
              && (m.Keyed? <==> key.Some?)
              && m.value == stringify(body[i])
              && (key.Some? ==> m.key == key.value)
  {
  }

  /** The messages of each payload. */
  function Batches(sent: seq<Payload>): (r: seq<seq<KafkaMessage>>)
    ensures |r| == |sent|
    ensures forall i :: 0 <= i < |sent| ==> r[i] == sent[i].messages
  {
    seq(|sent|, i requires 0 <= i < |sent| => sent[i].messages)
  }

  function Flatten<M>(xs: seq<seq<M>>): seq<M>
    decreases |xs|
  {
    if |xs| == 0 then [] else xs[0] + Flatten(xs[1..])
  }

  lemma {:induction false} FlattenAppend<M>(xs: seq<seq<M>>, x: seq<M>)
    ensures Flatten(xs + [x]) == Flatten(xs) + x
    decreases |xs|
  {
    if |xs| == 0 {
      assert xs + [x] == [x];
    } else {
      assert (xs + [x])[1..] == xs[1..] + [x];
      FlattenAppend(xs[1..], x);
    }
  }

  /** The reference partition: consecutive chunks of `size`, the last one
      holding the remainder. */
  function Chunks<M>(s: seq<M>, size: nat): seq<seq<M>>
    requires size > 0
    decreases |s|
  {
    if |s| == 0 then []
    else if |s| <= size then [s]
    else [s[..size]] + Chunks(s[size..], size)
  }

  /** `cs` cuts `s` into full chunks of `size` followed by one non-empty
      chunk of at most `size`. */
  ghost predicate IsPartition<M>(cs: seq<seq<M>>, s: seq<M>, size: nat) {
    && Flatten(cs) == s
    && (forall i :: 0 <= i < |cs| - 1 ==> |cs[i]| == size)
    && (|cs| > 0 ==> 1 <= |cs[|cs| - 1]| <= size)
  }

  /** The reference partition is one. */
  lemma {:induction false} ChunksPartition<M>(s: seq<M>, size: nat)
    requires size > 0
    ensures IsPartition(Chunks(s, size), s, size)
    decreases |s|
  {
    if |s| == 0 {
    } else if |s| <= size {
      assert Flatten([s]) == s + Flatten([s][1..]);
    } else {
      var rest := Chunks(s[size..], size);
      ChunksPartition(s[size..], size);
      var cs := [s[..size]] + rest;
      assert cs[1..] == rest;
      assert Flatten(cs) == s[..size] + Flatten(rest);
      assert s[..size] + s[size..] == s;
    }
  }

  /** It has ceil(|s| / size) chunks. */
  lemma {:induction false} ChunksCount<M>(s: seq<M>, size: nat)
    requires size > 0
    ensures |Chunks(s, size)| == (|s| + size - 1) / size
    decreases |s|
  {
    if |s| == 0 {
    } else if |s| <= size {
      assert 1 <= (|s| + size - 1) / size < 2 by {
        DivBounds(|s| + size - 1, size, 1);
      }
    } else {
      ChunksCount(s[size..], size);
      assert |s[size..]| + size - 1 + size == |s| + size - 1;
      DivStep(|s[size..]| + size - 1, size);
    }
  }

  lemma DivBounds(a: nat, d: nat, q: nat)
    requires d > 0 && q * d <= a < (q + 1) * d
    ensures a / d == q
  {
    var q' := a / d;
    assert a == q' * d + a % d;
    if q' < q {
      MulMonotone(q' + 1, q, d);
      assert false;
    } else if q' > q {
      MulMonotone(q + 1, q', d);
      assert false;
    }
  }

  lemma MulMonotone(x: nat, y: nat, d: nat)
    requires x <= y
    ensures x * d <= y * d
  {
  }

  lemma DivStep(a: nat, d: nat)
    requires d > 0
    ensures (a + d) / d == a / d + 1
  {
    var q := a / d;
    assert q * d <= a < (q + 1) * d;
    assert (q + 1) * d == q * d + d;
    DivBounds(a + d, d, q + 1);
  }

  /** There is only one such partition, so any order-preserving chunking
      into full chunks and a non-empty remainder is the reference one. */
  lemma {:induction false} PartitionIsUnique<M>(cs: seq<seq<M>>, s: seq<M>, size: nat)
    requires size > 0
    requires IsPartition(cs, s, size)
    ensures cs == Chunks(s, size)
    decreases |cs|
  {
    if |cs| == 0 {
    } else if |cs| == 1 {
      assert Flatten(cs) == cs[0] + Flatten(cs[1..]);
      assert s == cs[0];
    } else {
      assert Flatten(cs) == cs[0] + Flatten(cs[1..]);
      assert |cs[0]| == size;
      var rest := cs[1..];
      assert |cs[|cs| - 1]| >= 1;
      assert |Flatten(rest)| >= 1 by {
        FlattenLast(rest);
      }
      assert s[..size] == cs[0];
      assert s[size..] == Flatten(rest);
      assert IsPartition(rest, s[size..], size) by {
        forall i | 0 <= i < |rest| - 1
          ensures |rest[i]| == size
        {
          assert rest[i] == cs[i + 1];
        }
      }
      PartitionIsUnique(rest, s[size..], size);
    }
  }

  /** A flattening is at least as long as its last element. */
  lemma {:induction false} FlattenLast<M>(xs: seq<seq<M>>)
    requires |xs| > 0
    ensures |Flatten(xs)| >= |xs[|xs| - 1]|
    decreases |xs|
  {
    if |xs| > 1 {
      FlattenLast(xs[1..]);
    }
  }

  /** What the producer's callback reports for one send. */
  function Answer(error: Option<string>): Outcome {
    SendToKafka("", [], error).outcome
  }

  /** `pushData(topic, body, key)` as written: the chunks filled inside the
      loop are sent without waiting for their outcome (kafka.js:77); only the
      send of a non-empty remainder is returned; a body whose length is a
      multiple of 1000, the empty body included, ends in the "producer not
      ready" rejection after all its chunks were sent (kafka.js:82-90).
      `callback(i)` is the error the producer reports for the i-th send. */
  method PushData<T>(p: Producer, topic: string, body: seq<T>, key: Option<string>,
                     stringify: T -> string, callback: nat -> Option<string>)
    returns (sent: seq<Payload>, outcome: Outcome)
    ensures !p.enabled ==> sent == [] && outcome == NotEnabled
    ensures p.enabled && !p.ready ==> sent == [] && outcome == NotReady
    ensures p.enabled && p.ready ==>
              // in order, nothing lost or added
              && Flatten(Batches(sent)) == WrapAll(body, key, stringify)
              && (forall i :: 0 <= i < |sent| ==> sent[i].topic == topic)
              // full chunks, then a remainder of 1 to 1000
              && (forall i :: 0 <= i < |sent| - 1 ==> |sent[i].messages| == MaxBatch)
              && (|sent| > 0 ==> 1 <= |sent[|sent| - 1].messages| <= MaxBatch)
              && |sent| == (|body| + MaxBatch - 1) / MaxBatch
              && Batches(sent) == Chunks(WrapAll(body, key, stringify), MaxBatch)
              // only the remainder's send decides the outcome
              && outcome == (if |body| % MaxBatch == 0 then NotReady else Answer(callback(|sent| - 1)))
  {
    if !p.enabled {
      return [], NotEnabled;
    }
    if !p.ready {
      return [], NotReady;
    }
    ghost var all := WrapAll(body, key, stringify);
    var messages;
    sent, messages := SendFullChunks(topic, body, key, stringify, callback);
    DivMod(|body|, |sent|, |messages|);
    if |messages| > 0 {
      var send := SendToKafka(topic, messages, callback(|sent|));
      AppendPayload(sent, send.payloads[0]);
      sent := sent + send.payloads;
      outcome := send.outcome;
    } else {
      outcome := NotReady;
    }
    PartitionIsUnique(Batches(sent), all, MaxBatch);
    ChunksCount(all, MaxBatch);
  }

  /** The `body.forEach` loop of `pushData` (kafka.js:68-81): wrap each
      message and send every full chunk of 1000 as soon as it is filled,
      ignoring the result. Returns the sends issued and the remainder. */
  method SendFullChunks<T>(topic: string, body: seq<T>, key: Option<string>,
                           stringify: T -> string, callback: nat -> Option<string>)
    returns (sent: seq<Payload>, messages: seq<KafkaMessage>)
    ensures Flatten(Batches(sent)) + messages == WrapAll(body, key, stringify)
    ensures forall j :: 0 <= j < |sent| ==> sent[j].topic == topic && |sent[j].messages| == MaxBatch
    ensures |messages| < MaxBatch
    ensures |body| == |sent| * MaxBatch + |messages|
  {
    ghost var all := WrapAll(body, key, stringify);
    messages := [];
    var msgCount := 0;
    sent := [];
    var i := 0;
    while i < |body|
      invariant 0 <= i <= |body|
      invariant msgCount == |messages| < MaxBatch
      invariant i == |sent| * MaxBatch + |messages|
      invariant forall j :: 0 <= j < |sent| ==> sent[j].topic == topic && |sent[j].messages| == MaxBatch
      invariant Flatten(Batches(sent)) + messages == all[..i]
    {
      messages := messages + [Wrap(body[i], key, stringify)];
      msgCount := msgCount + 1;
      assert all[..i + 1] == all[..i] + [all[i]];
      if msgCount >= MaxBatch {
        var send := SendToKafka(topic, messages, callback(|sent|));
        AppendPayload(sent, send.payloads[0]);
        sent := sent + send.payloads;
        messages := [];
        msgCount := 0;
      }
      i := i + 1;
    }
    assert all[..|body|] == all;
  }

  /** Sending one more payload appends its messages to what was sent. */
  lemma AppendPayload(sent: seq<Payload>, payload: Payload)
    ensures Flatten(Batches(sent + [payload])) == Flatten(Batches(sent)) + payload.messages
  {
    assert Batches(sent + [payload]) == Batches(sent) + [payload.messages];
    FlattenAppend(Batches(sent), payload.messages);
  }

  /** Quotient and remainder by the chunk size. */
  lemma DivMod(n: nat, q: nat, r: nat)
    requires n == q * MaxBatch + r && r < MaxBatch
    ensures n / MaxBatch == q && n % MaxBatch == r
  {
  }

  // ---- A stricter publisher: every chunk awaited ----

  /** Send `chunks` one after another, waiting for each, and stop at the first
      failure; `callback(next + i)` answers the i-th of them. */
  function SendInTurn(topic: string, chunks: seq<seq<KafkaMessage>>, callback: nat -> Option<string>, next: nat): (r: Sent)
    ensures |r.payloads| <= |chunks|
    ensures forall i :: 0 <= i < |r.payloads| ==> r.payloads[i] == Payload(topic, chunks[i])
    // every send before the last one issued succeeded (sends are numbered from `next`)
    ensures forall j :: next <= j < next + |r.payloads| - 1 ==> callback(j).None?
    ensures r.outcome == Resolved <==>
              |r.payloads| == |chunks| && forall j :: next <= j < next + |chunks| ==> callback(j).None?
    ensures r.outcome.Rejected? ==>
              |r.payloads| >= 1 && r.outcome == Answer(callback(next + |r.payloads| - 1))
    decreases |chunks|
  {
    if |chunks| == 0 then Sent([], Resolved)
    else
      var first := SendToKafka(topic, chunks[0], callback(next));
      if first.outcome.Rejected? then first
      else
        var rest := SendInTurn(topic, chunks[1..], callback, next + 1);
        Sent(first.payloads + rest.payloads, rest.outcome)
  }

  /** A stricter `pushData` of this model's own: every chunk is
      awaited in turn, the first failure stops the call and is reported, and
      the call resolves only once every chunk was sent and accepted, an empty
      body included. The two rejections for a disabled or unready producer
      are as written. */
  function PublishBatch<T>(p: Producer, topic: string, body: seq<T>, key: Option<string>,
                           stringify: T -> string, callback: nat -> Option<string>): (r: Sent)
    ensures !p.enabled ==> r == Sent([], NotEnabled)
    ensures p.enabled && !p.ready ==> r == Sent([], NotReady)
    ensures p.enabled && p.ready ==>
              var chunks := Chunks(WrapAll(body, key, stringify), MaxBatch);
              // the chunks are sent in order, up to the first failure
              && |r.payloads| <= |chunks|
              && (forall i :: 0 <= i < |r.payloads| ==> r.payloads[i] == Payload(topic, chunks[i]))
              && (forall j :: 0 <= j < |r.payloads| - 1 ==> callback(j).None?)
              // resolved exactly when everything was sent and accepted
              && (r.outcome == Resolved <==>
                    Flatten(Batches(r.payloads)) == WrapAll(body, key, stringify)
                    && forall j :: 0 <= j < |r.payloads| ==> callback(j).None?)
              && (r.outcome.Rejected? ==> |r.payloads| >= 1 && r.outcome == Answer(callback(|r.payloads| - 1)))
              && (|body| == 0 ==> r == Sent([], Resolved))
  {
    if !p.enabled then Sent([], NotEnabled)
    else if !p.ready then Sent([], NotReady)
    else
      var all := WrapAll(body, key, stringify);
      var r := SendInTurn(topic, Chunks(all, MaxBatch), callback, 0);
      SentAllExactlyWhenFlat(topic, all, callback);
      r
  }

  /** What `SendInTurn` sent of the reference chunks flattens back to the
      whole input exactly when every chunk was sent. */
  lemma SentAllExactlyWhenFlat(topic: string, all: seq<KafkaMessage>, callback: nat -> Option<string>)
    ensures var chunks := Chunks(all, MaxBatch);
            var r := SendInTurn(topic, chunks, callback, 0);
            Flatten(Batches(r.payloads)) == all <==> |r.payloads| == |chunks|
  {
    var chunks := Chunks(all, MaxBatch);
    var r := SendInTurn(topic, chunks, callback, 0);
    ChunksPartition(all, MaxBatch);
    assert Batches(r.payloads) == chunks[..|r.payloads|];
    if |r.payloads| == |chunks| {
      assert chunks[..|r.payloads|] == chunks;
    }
    if Flatten(Batches(r.payloads)) == all {
      PrefixPartition(chunks, |r.payloads|, all);
    }
  }

  /** Of a partition of `s`, only the whole flattens back to `s`. */
  lemma PrefixPartition<M>(cs: seq<seq<M>>, n: nat, s: seq<M>)
    requires n <= |cs|
    requires IsPartition(cs, s, MaxBatch)
    requires Flatten(cs[..n]) == s
    ensures n == |cs|
  {
    if n < |cs| {
      FlattenSplit(cs, n);
      assert false;
    }
  }

  lemma {:induction false} FlattenSplit<M>(cs: seq<seq<M>>, n: nat)
    requires n <= |cs|
    ensures Flatten(cs) == Flatten(cs[..n]) + Flatten(cs[n..])
    decreases n
  {
    if n > 0 {
      assert cs[1..][..n - 1] == cs[1..n];
      assert cs[1..][n - 1..] == cs[n..];
      FlattenSplit(cs[1..], n - 1);
      assert cs[..n][1..] == cs[1..n];
    } else {
      assert cs[..0] == [];
      assert cs[0..] == cs;
    }
  }

  /** As written, a body of exactly one full chunk is sent and then rejected
      as if the producer were not ready. */
  method AsWrittenRejectsFullChunk() returns (sent: seq<Payload>, outcome: Outcome)
    ensures |sent| == 1 && |sent[0].messages| == MaxBatch
    ensures outcome == NotReady
  {
    var body := seq(1000, i => i);
    sent, outcome := PushData(Producer(true, true), "values", body, None, (n: int) => "0", (j: nat) => None);
  }

  /** As written, a failed full chunk goes unnoticed when the remainder's
      send succeeds. */
  method AsWrittenIgnoresEarlierFailure() returns (sent: seq<Payload>, outcome: Outcome)
    ensures |sent| == 2
    ensures outcome == Resolved
  {
    var body := seq(1001, i => i);
    var callback := (j: nat) => if j == 0 then Some("broker down") else None;
    sent, outcome := PushData(Producer(true, true), "values", body, None, (n: int) => "0", callback);
  }
}

=== FILE: registrar.dfy ===
/** Provisioning of the two derived properties of an entity
    (`createThingProperties`), and the handlers of the `things` and
    `properties` topics (`processThing`, `processProperty`). */
module Registrar {
  import opened Wrappers
  import opened Json
  import opened ProcessorState

  /** `thing.findPropertyByName(name).id`: the id of the first property with
      that name, `None` where JavaScript would throw on `undefined.id`. */
  function FindByName(properties: seq<PropertyRef>, name: string): (r: Option<Id>)
    ensures r.Some? <==> exists i :: 0 <= i < |properties| && properties[i].name == name
    ensures r.Some? ==> exists i :: 0 <= i < |properties| && properties[i] == PropertyRef(name, r.value)
  {
    if |properties| == 0 then None
    else if properties[0].name == name then Some(properties[0].id)
    else
      var r := FindByName(properties[1..], name);
      assert r.Some? ==> properties[1..][0] == properties[1];
      assert forall i :: 1 <= i < |properties| ==> properties[i] == properties[1..][i - 1];
      r
  }

  /** The record rebuilt from an entity read back from the registry, when it
      already owns both derived properties. */
  function Recover(thing: Thing): (r: Option<ThingRecord>)
    ensures r.Some? <==> (FindByName(thing.properties, DataCountName).Some?
                          && FindByName(thing.properties, DataActivityName).Some?)
    ensures r.Some? ==> r.value.id == thing.id && r.value.count == 0 && r.value.activity == Quiet
    ensures r.Some? ==> r.value.dataCountId == FindByName(thing.properties, DataCountName).value
    ensures r.Some? ==> r.value.dataActivityId == FindByName(thing.properties, DataActivityName).value
  {
    var countId :- FindByName(thing.properties, DataCountName);
    var activityId :- FindByName(thing.properties, DataActivityName);
    Some(Fresh(thing.id, countId, activityId))
  }

  /** `createThingProperties(entityId)`: create the COUNT property, then, only
      if that succeeded, the CLASS property with labels Quiet and Busy; store
      the record only once both creates have succeeded. The id of the first
      create is held in a local, where the source assigns an implicit global
      (index.js:170,181); with each call completing atomically the two agree.
      There is no guard against an entity that is already tracked. */
  function Provision(s: State, entityId: Id, reg: Outcomes): (r: Transition)
    ensures 1 <= |r.calls| <= 2
    ensures r.calls[0] == Create(CountSpec(entityId))
    ensures |r.calls| == 2 <==> reg.countCreate.Some?
    ensures |r.calls| == 2 ==> r.calls[1] == Create(ActivitySpec(entityId))
    ensures r.state.props == s.props
    ensures reg.countCreate.Some? && reg.activityCreate.Some? ==>
              r.state.things == s.things[entityId := Fresh(entityId, reg.countCreate.value, reg.activityCreate.value)]
    ensures reg.countCreate.None? || reg.activityCreate.None? ==> r.state.things == s.things
    ensures KeptOrFresh(s, r.state)
  {
    match reg.countCreate
    case None => Transition(s, [Create(CountSpec(entityId))])
    case Some(countId) =>
      var calls := [Create(CountSpec(entityId)), Create(ActivitySpec(entityId))];
      match reg.activityCreate
      case None => Transition(s, calls)
      case Some(activityId) =>
        Transition(State(s.things[entityId := Fresh(entityId, countId, activityId)], s.props), calls)
  }

  /** `processThing(thing)`: provision the properties of the entity named by
      the payload's `id`. */
  function ProcessThing(s: State, doc: Value, reg: Outcomes): (r: Transition)
    ensures r.state.props == s.props
    ensures forall c :: c in r.calls ==> c.Create? && Some(c.spec.entityId) == AsKey(Field(doc, "id"))
    ensures AsKey(Field(doc, "id")).None? ==> r == Transition(s, [])
    ensures AsKey(Field(doc, "id")).Some? ==> r == Provision(s, AsKey(Field(doc, "id")).value, reg)
    ensures forall k :: k in s.things ==> k in r.state.things
    ensures forall k :: k in r.state.things && k !in s.things ==> Some(k) == AsKey(Field(doc, "id"))
    ensures KeptOrFresh(s, r.state)
  {
    match AsKey(Field(doc, "id"))
    case None => Transition(s, [])
    case Some(entityId) => Provision(s, entityId, reg)
  }

  /** `processProperty(property)`: index a newly seen property under its
      owning entity, and make sure that entity becomes tracked, first by
      reading it back from the registry and, should that fail, by
      provisioning it. A read that succeeds but lacks one of the two named
      properties throws inside the promise chain and so also ends in
      provisioning. */
  function ProcessProperty(s: State, doc: Value, reg: Outcomes): (r: Transition)
    // The guard: the owner is defined and the property is not yet indexed.
    ensures var e := AsKey(Field(doc, "entityId")); var p := AsKey(Field(doc, "id"));
            e.None? || p.None? || p.value in s.props ==> r == Transition(s, [])
    ensures var e := AsKey(Field(doc, "entityId")); var p := AsKey(Field(doc, "id"));
            e.Some? && p.Some? && p.value !in s.props ==>
              // insert-once: exactly one new entry, none changed
              && r.state.props == s.props[p.value := e.value]
              // a read is issued exactly when the owner is not tracked
              && (e.value in s.things ==> r.state.things == s.things && r.calls == [])
              && (e.value !in s.things ==> |r.calls| >= 1 && r.calls[0] == Read(e.value))
              // no other record is touched
              && (forall k :: k in s.things && k != e.value ==> k in r.state.things && r.state.things[k] == s.things[k])
              && r.state.things.Keys <= s.things.Keys + {e.value}
    ensures forall c :: c in r.calls ==> c.Read? ==> c == r.calls[0]
    ensures s.props.Keys <= r.state.props.Keys && s.things.Keys <= r.state.things.Keys
    ensures KeptOrFresh(s, r.state)
  {
    var e := AsKey(Field(doc, "entityId"));
    var p := AsKey(Field(doc, "id"));
    if e.None? || p.None? || p.value in s.props then Transition(s, [])
    else
      var owner := e.value;
      var indexed := State(s.things, s.props[p.value := owner]);
      if owner in s.things then Transition(indexed, [])
      else
        var recovered := if reg.read.Some? then Recover(reg.read.value) else None;
        match recovered
        case Some(rec) => Transition(State(s.things[owner := rec], indexed.props), [Read(owner)])
        case None =>
          var t := Provision(indexed, owner, reg);
          Transition(t.state, [Read(owner)] + t.calls)
  }

  /** When the owner of a new property is untracked and the registry returns
      it with both derived properties, the record is rebuilt from them with
      count 0 and Quiet, and nothing is created. */
  lemma ReadRecoversRecord(s: State, doc: Value, reg: Outcomes)
    requires AsKey(Field(doc, "entityId")).Some? && AsKey(Field(doc, "id")).Some?
    requires AsKey(Field(doc, "id")).value !in s.props
    requires AsKey(Field(doc, "entityId")).value !in s.things
    requires reg.read.Some?
    requires FindByName(reg.read.value.properties, DataCountName).Some?
    requires FindByName(reg.read.value.properties, DataActivityName).Some?
    ensures var e := AsKey(Field(doc, "entityId")).value;
            var r := ProcessProperty(s, doc, reg);
            && r.calls == [Read(e)]
            && e in r.state.things
            && r.state.things[e] == Fresh(reg.read.value.id,
                                          FindByName(reg.read.value.properties, DataCountName).value,
                                          FindByName(reg.read.value.properties, DataActivityName).value)
  {
  }

  /** When the read fails, or returns an entity lacking one of the derived
      properties, the property is still indexed and provisioning follows the
      read: an entity is tracked afterwards exactly when both creates
      succeeded. */
  lemma ReadFailureProvisions(s: State, doc: Value, reg: Outcomes)
    requires AsKey(Field(doc, "entityId")).Some? && AsKey(Field(doc, "id")).Some?
    requires AsKey(Field(doc, "id")).value !in s.props
    requires AsKey(Field(doc, "entityId")).value !in s.things
    requires reg.read.None? || Recover(reg.read.value).None?
    ensures var e := AsKey(Field(doc, "entityId")).value;
            var r := ProcessProperty(s, doc, reg);
            && r.calls == [Read(e), Create(CountSpec(e))]
                          + (if reg.countCreate.Some? then [Create(ActivitySpec(e))] else [])
            && (e in r.state.things <==> reg.countCreate.Some? && reg.activityCreate.Some?)
            && (e in r.state.things ==>
                  r.state.things[e] == Fresh(e, reg.countCreate.value, reg.activityCreate.value))
  {
  }

  /** The `things` handler has no guard against an entity that is already
      tracked: a repeated event creates the two properties again and resets
      the record, dropping the values counted so far. */
  lemma ProcessThingReprovisions(s: State, doc: Value, reg: Outcomes)
    requires AsKey(Field(doc, "id")).Some? && AsKey(Field(doc, "id")).value in s.things
    requires reg.countCreate.Some? && reg.activityCreate.Some?
    ensures var e := AsKey(Field(doc, "id")).value;
            var r := ProcessThing(s, doc, reg);
            && r.calls == [Create(CountSpec(e)), Create(ActivitySpec(e))]
            && r.state.things[e].count == 0 && r.state.things[e].activity == Quiet
  {
  }
}

=== FILE: router.dfy ===
/** `onMessage`: parse the payload of a bus message and dispatch it by topic
    to the handler of `things`, `properties` or `values`. */
module EventRouter {
  import opened Wrappers
  import opened Json
  import opened ProcessorState
  import Registrar
  import Aggregation
  import ActivityEvaluator

  /** A message as delivered by the bus. */
  datatype Message = Message(topic: string, key: Option<string>, value: seq<bv8>)

  /** `values.length` of a parsed value batch. A payload that is not an array
      is dropped. */
  function BatchSize(doc: Value): (r: Option<nat>)
    ensures r.Some? <==> doc.JArr?
    ensures r.Some? ==> r.value == |doc.items|
  {
    if doc.JArr? then Some(|doc.items|) else None
  }

  /** The `values` handler as intended: the parsed batch, charged to the
      property named by the message key. The source passes the whole message
      instead (index.js:69 against the signature at index.js:107). */
  function ProcessValues(s: State, key: Option<string>, doc: Value): (r: State)
    ensures r.props == s.props && r.things.Keys == s.things.Keys
    ensures BatchSize(doc).None? ==> r == s
    ensures BatchSize(doc).Some? ==> r == Aggregation.ProcessValue(s, key, BatchSize(doc).value)
  {
    match BatchSize(doc)
    case None => s
    case Some(n) => Aggregation.ProcessValue(s, key, n)
  }

  /** `onMessage(message)`, with `parse` standing for `JSON.parse` and `reg`
      for the answers of the registry calls the handler issues. */
  function OnMessage(s: State, m: Message, parse: seq<bv8> -> Option<Value>, reg: Outcomes): (r: Transition)
    // A payload that does not parse reaches no handler.
    ensures parse(m.value).None? ==> r == Transition(s, [])
    // Any other topic changes nothing.
    ensures m.topic !in {"things", "properties", "values"} ==> r == Transition(s, [])
    // `things`: only creates are issued, and the index is left alone.
    ensures m.topic == "things" ==> r.state.props == s.props && forall c :: c in r.calls ==> c.Create?
    // `values`: no registry call, only counters move.
    ensures m.topic == "values" ==>
              && r.calls == []
              && r.state.props == s.props
              && r.state.things.Keys == s.things.Keys
              && forall k :: k in s.things ==>
                   r.state.things[k] == s.things[k].(count := r.state.things[k].count)
                   && r.state.things[k].count >= s.things[k].count
    // `properties`: at most one index entry is added, none is changed.
    ensures m.topic == "properties" ==>
              && (forall p :: p in s.props ==> p in r.state.props && r.state.props[p] == s.props[p])
              && |r.state.props.Keys - s.props.Keys| <= 1
    // No handler forgets an entity or an index entry.
    ensures s.things.Keys <= r.state.things.Keys && s.props.Keys <= r.state.props.Keys
    ensures KeptOrFresh(s, r.state) || m.topic == "values"
    // Dispatch of a payload that parses, by topic.
    ensures parse(m.value).Some? && m.topic == "things" ==>
              r == Registrar.ProcessThing(s, parse(m.value).value, reg)
    ensures parse(m.value).Some? && m.topic == "properties" ==>
              r == Registrar.ProcessProperty(s, parse(m.value).value, reg)
    ensures parse(m.value).Some? && m.topic == "values" ==>
              var doc := parse(m.value).value;
              var owner := Aggregation.Owner(s, m.key);
              && (doc.JArr? && owner.Some? ==>
                    && r.state.things[owner.value].count == s.things[owner.value].count + |doc.items|
                    && forall k :: k in s.things && k != owner.value ==> r.state.things[k] == s.things[k])
              && (!doc.JArr? || owner.None? ==> r == Transition(s, []))
  {
    match parse(m.value)
    case None => Transition(s, [])
    case Some(doc) =>
      if m.topic == "things" then Registrar.ProcessThing(s, doc, reg)
      else if m.topic == "properties" then
        Registrar.ProcessProperty(s, doc, reg)
      else if m.topic == "values" then Transition(ProcessValues(s, m.key, doc), [])
      else Transition(s, [])
  }

  /** The `values` branch exactly as written: `processValue(message)` leaves
      `propertyId` undefined, so no property ever resolves. */
  function OnValuesAsWritten(s: State, m: Message, parse: seq<bv8> -> Option<Value>): (r: State)
    ensures r == s
  {
    match parse(m.value)
    case None => s
    // `message.length` is undefined too; it is never reached, so 0 stands in.
    case Some(doc) => Aggregation.ProcessValue(s, None, 0)
  }

  /** One input on which the two differ: a batch of two values for an
      indexed property of a tracked entity. */
  lemma AsWrittenValuesAreNeverCounted(parse: seq<bv8> -> Option<Value>)
    requires parse([]) == Some(JArr([JNum(1), JNum(2)]))
    ensures var rec := ThingRecord("t1", 0, Quiet, "c1", "a1");
            var s := State(map["t1" := rec], map["p1" := "t1"]);
            var m := Message("values", Some("p1"), []);
            && OnValuesAsWritten(s, m, parse).things["t1"].count == 0
            && OnMessage(s, m, parse, Outcomes(None, None, None)).state.things["t1"].count == 2
  {
  }

  /** The bound on every counter that holds from the empty state on. */
  predicate Invariant(s: State) {
    forall k :: k in s.things ==> ActivityEvaluator.CounterFloor(s.things[k])
  }

  /** The processor starts with both maps empty, where the invariant holds. */
  lemma EmptyKeepsInvariant()
    ensures Invariant(Empty)
  {
  }

  /** Handling any message keeps the invariant. */
  lemma OnMessageKeepsInvariant(s: State, m: Message, parse: seq<bv8> -> Option<Value>, reg: Outcomes)
    requires Invariant(s)
    ensures Invariant(OnMessage(s, m, parse, reg).state)
  {
  }

  /** A tick keeps the invariant. */
  lemma TickKeepsInvariant(s: State, now: int)
    requires Invariant(s)
    ensures Invariant(ActivityEvaluator.Tick(s, now).state)
  {
  }
}

=== FILE: state.dfy ===
/** The processor's in-memory state (`thingMap` and `propertyMap`) and the
    effects its handlers produce: registry calls and property updates. */
module ProcessorState {
  import opened Wrappers

  type Id = string

  /** The two-state activity classification; its wire value is 0 or 1. */
  datatype Activity = Quiet | Busy

  function Code(a: Activity): (r: int)
    ensures 0 <= r <= 1
    ensures r == 1 <==> a == Busy
  {
    if a == Busy then 1 else 0
  }

  /** One entry of `thingMap`. Both property ids are present in every record:
      a record is never stored half-initialised. */
  datatype ThingRecord = ThingRecord(
    id: Id,
    count: int,
    activity: Activity,
    dataCountId: Id,
    dataActivityId: Id)

  /** `thingMap` (entity id to record) and `propertyMap` (property id to the
      id of the entity owning it). */
  datatype State = State(things: map<Id, ThingRecord>, props: map<Id, Id>)

  const Empty: State := State(map[], map[])

  /** A single-point time-series write `[[now, value]]` to a property. */
  datatype Update = Update(propertyId: Id, timestamp: int, value: int)

  datatype Kind = COUNT | CLASS

  /** The body of a property-creation request. */
  datatype PropertySpec = PropertySpec(name: string, kind: Kind, entityId: Id, classes: seq<string>)

  const DataCountName := "Data Count"
  const DataActivityName := "Data Activity"

  function CountSpec(entityId: Id): PropertySpec {
    PropertySpec(DataCountName, COUNT, entityId, [])
  }

  function ActivitySpec(entityId: Id): PropertySpec {
    PropertySpec(DataActivityName, CLASS, entityId, ["Quiet", "Busy"])
  }

  /** A call issued to the registry service. */
  datatype Call = Read(entityId: Id) | Create(spec: PropertySpec)

  /** A property of an entity as returned by a registry read. */
  datatype PropertyRef = PropertyRef(name: string, id: Id)

  /** An entity as returned by a registry read. */
  datatype Thing = Thing(id: Id, properties: seq<PropertyRef>)

  /** What the registry answers to the calls one handler may issue, in issue
      order: the read, the COUNT create, the CLASS create. `None` is a
      rejected promise. An answer is consulted only if its call is issued. */
  datatype Outcomes = Outcomes(read: Option<Thing>, countCreate: Option<Id>, activityCreate: Option<Id>)

  /** The new state after one handler, with the registry calls it issued. */
  datatype Transition = Transition(state: State, calls: seq<Call>)

  /** A freshly tracked entity: nothing counted yet, quiet. */
  function Fresh(id: Id, dataCountId: Id, dataActivityId: Id): (r: ThingRecord)
    ensures r.count == 0 && r.activity == Quiet
    ensures r.id == id && r.dataCountId == dataCountId && r.dataActivityId == dataActivityId
  {
    ThingRecord(id, 0, Quiet, dataCountId, dataActivityId)
  }

  /** Every record of `s'` is either the record `s` held under that key or a
      freshly initialised one: the registrar never edits a counter or a
      classification, it only (re)creates records. */
  predicate KeptOrFresh(s: State, s': State) {
    forall k :: k in s'.things ==>
      (k in s.things && s'.things[k] == s.things[k])
      || (s'.things[k].count == 0 && s'.things[k].activity == Quiet)
  }
}

=== FILE: wrappers.dfy ===
/** Failure-compatible Option, standing for JavaScript's `undefined` and for
    registry calls that may fail. */
module Wrappers {

  datatype Option<+T> = None | Some(value: T) {

    predicate IsFailure() {
      None?
    }

    function PropagateFailure<U>(): Option<U>
      requires None?
    {
      None
    }

    function Extract(): T
      requires Some?
    {
      value
    }
  }
}
